=== FILE: README.md ===
# Duplicate-patient matcher (pihmalawi `FindPatientsToMergeSoundexDataSetEvaluator`)

A Dafny model of the report that looks for possible duplicate patient records
in an OpenMRS database. It covers:

- the scanned population (the base cohort, or all patients, then an optional size limit);
- the pool of candidate duplicates (all of the cohort, or the patients with encounters of
  given types that hold the required identifier type and are outside the cohort);
- the duplicate query: the name-code pairing, with or without swapped given and family
  names, excluding user accounts;
- the gender filter of `soundexMatches`, which tolerates a missing gender;
- the per-patient loop: a "#" cell, numbered "potential match_i" cells, and an
  "Error while loading patient <id>" cell when a patient cannot be processed.

The data is a read-only snapshot `Store = map<Id, Person>`. Each person carries
its precomputed name codes (the `person_name_code` rows), its gender, whether its
id is a user account, whether it is a patient, its identifier types, the
villages of its addresses and its encounters.

Files, one module each:

| file | module | contents |
|---|---|---|
| `wrappers.dfy` | `Wrappers` | `Option` and `Result` |
| `text.dfy` | `Text` | ASCII case folding, decimal rendering of ids |
| `persons.dfy` | `Persons` | the snapshot, `getAllPatients`, `getPatientsHavingEncounters` |
| `ids.dfy` | `IdOrder` | ascending enumeration of id sets |
| `cohort.dfy` | `Cohorts` | cohort resolution, limit, candidate pool, reference patients |
| `query.dfy` | `Query` | the WHERE clause as tokens, the host's evaluation of it, its intended meaning |
| `matcher.dfy` | `Matcher` | `soundexMatches` and the gender filter |
| `report.dfy` | `Report` | `firstLastEncounter`, patient summaries, cells and rows |
| `evaluator.dfy` | `Evaluator` | `evaluate` as a function and as the row-adding loop |

## Model

| member | source | states |
|---|---|---|
| Cohorts.LimitCohort | api/src/main/java/org/openmrs/module/pihmalawi/reporting/definition/dataset/evaluator/FindPatientsToMergeSoundexDataSetEvaluator.java:57-59 | the limited cohort is a subset of at most `n` members, equals the cohort when that is within the limit, and keeps lower ids before higher ones |
| Cohorts.ResolveCohort | api/src/main/java/org/openmrs/module/pihmalawi/reporting/definition/dataset/evaluator/FindPatientsToMergeSoundexDataSetEvaluator.java:49-59 | a missing context or base cohort means all patients; a given base cohort is used unchanged when there is no limit or it is within the limit, and is otherwise cut to a subset of exactly `limit` members |
| Cohorts.CandidatePool | api/src/main/java/org/openmrs/module/pihmalawi/reporting/definition/dataset/evaluator/FindPatientsToMergeSoundexDataSetEvaluator.java:77-95 | with no encounter types the pool is the cohort. With them it is disjoint from the cohort and inside the patients having those encounters, every member holds the required identifier type, and every such patient outside the cohort that holds the identifier is kept |
| Cohorts.ReferencePatients | api/src/main/java/org/openmrs/module/pihmalawi/reporting/definition/dataset/evaluator/FindPatientsToMergeSoundexDataSetEvaluator.java:97 | the patients walked are exactly the cohort members that are patients, each once, in ascending id order, so there are as many of them as the cohort has patients |
| Query.Conjoin | api/src/main/java/org/openmrs/module/pihmalawi/reporting/definition/dataset/evaluator/FindPatientsToMergeSoundexDataSetEvaluator.java:61-75 | joining conditions with `and` keeps exactly those conditions and places one `and` between neighbours |
| Query.ConjoinIsConjunction | api/src/main/java/org/openmrs/module/pihmalawi/reporting/definition/dataset/evaluator/FindPatientsToMergeSoundexDataSetEvaluator.java:61-75 | any non-empty list of conditions joined this way is text the database accepts |
| Query.RunQuery | api/src/main/java/org/openmrs/module/pihmalawi/reporting/definition/dataset/evaluator/FindPatientsToMergeSoundexDataSetEvaluator.java:129-134 | the query fails exactly when its WHERE clause is not a well-formed conjunction; otherwise each key is a stored person and maps to that person's gender |
| Query.AsWrittenWhere | api/src/main/java/org/openmrs/module/pihmalawi/reporting/definition/dataset/evaluator/FindPatientsToMergeSoundexDataSetEvaluator.java:62-74 | the clause as the fragments concatenate it is as long as the intended one, but has two `and`s in a row after its first condition and the first name comparison straight after the patient join, with no `and` between |
| Query.AsWrittenRejected | api/src/main/java/org/openmrs/module/pihmalawi/reporting/definition/dataset/evaluator/FindPatientsToMergeSoundexDataSetEvaluator.java:64-70 | the clause as the fragments concatenate it is rejected for every reference patient and both swap settings |
| Query.MatchWhereIsConjunction | api/src/main/java/org/openmrs/module/pihmalawi/reporting/definition/dataset/evaluator/FindPatientsToMergeSoundexDataSetEvaluator.java:62-74 | the clause with one `and` between neighbouring conditions is accepted |
| Query.OnlySelectedPairing | api/src/main/java/org/openmrs/module/pihmalawi/reporting/definition/dataset/evaluator/FindPatientsToMergeSoundexDataSetEvaluator.java:67-71 | the intended clause compares like name parts exactly when the swap flag is off, so only the selected pairing is evaluated |
| Query.AllHoldConjoin | api/src/main/java/org/openmrs/module/pihmalawi/reporting/definition/dataset/evaluator/FindPatientsToMergeSoundexDataSetEvaluator.java:62-74 | a pair of name rows satisfies the joined clause exactly when it satisfies each joined condition |
| Query.ConditionsGiveMatch | api/src/main/java/org/openmrs/module/pihmalawi/reporting/definition/dataset/evaluator/FindPatientsToMergeSoundexDataSetEvaluator.java:62-74 | name rows meeting every condition make the candidate a match: another non-user patient of the pool whose name pairs with a name of the non-user reference |
| Query.MatchGivesConditions | api/src/main/java/org/openmrs/module/pihmalawi/reporting/definition/dataset/evaluator/FindPatientsToMergeSoundexDataSetEvaluator.java:62-74 | every match has a pair of name rows meeting every condition |
| Query.MatchWhereMeaning | api/src/main/java/org/openmrs/module/pihmalawi/reporting/definition/dataset/evaluator/FindPatientsToMergeSoundexDataSetEvaluator.java:62-74 | the intended clause selects a candidate if and only if it is a match |
| Query.MatchQueryResult | api/src/main/java/org/openmrs/module/pihmalawi/reporting/definition/dataset/evaluator/FindPatientsToMergeSoundexDataSetEvaluator.java:129-134 | with the intended clause the query succeeds, and its keys are exactly the matches |
| Query.NameCodesMatchSymmetric | api/src/main/java/org/openmrs/module/pihmalawi/reporting/definition/dataset/evaluator/FindPatientsToMergeSoundexDataSetEvaluator.java:67-71 | both pairings are symmetric in the two names |
| Query.ModesDiffer | api/src/main/java/org/openmrs/module/pihmalawi/reporting/definition/dataset/evaluator/FindPatientsToMergeSoundexDataSetEvaluator.java:67-71 | for distinct codes, a name and its swapped form match only in swap mode, and a name and itself match only in plain mode |
| Query.MissingCodeMatchesNothing | api/src/main/java/org/openmrs/module/pihmalawi/reporting/definition/dataset/evaluator/FindPatientsToMergeSoundexDataSetEvaluator.java:67-71 | a name with a NULL code pairs with no name in either mode, because SQL `=` is never true of NULL; a name pairs with itself in plain mode exactly when both its codes are present |
| Text.EqualsIgnoreCaseIsEquivalence | api/src/main/java/org/openmrs/module/pihmalawi/reporting/definition/dataset/evaluator/FindPatientsToMergeSoundexDataSetEvaluator.java:139 | case-insensitive equality is reflexive, symmetric and transitive |
| Text.EqualsIgnoreCaseOfCase | api/src/main/java/org/openmrs/module/pihmalawi/reporting/definition/dataset/evaluator/FindPatientsToMergeSoundexDataSetEvaluator.java:139 | "M" and "m", and "f" and "F", are equal ignoring case, while "M" and "F" are not |
| Matcher.GenderCompatibleSymmetric | api/src/main/java/org/openmrs/module/pihmalawi/reporting/definition/dataset/evaluator/FindPatientsToMergeSoundexDataSetEvaluator.java:139 | the gender test gives the same answer with the two genders exchanged |
| Matcher.SoundexMatches | api/src/main/java/org/openmrs/module/pihmalawi/reporting/definition/dataset/evaluator/FindPatientsToMergeSoundexDataSetEvaluator.java:126-145 | the candidates fail exactly when the query is rejected. Otherwise each id appears once, in ascending order, and is gender-compatible with the reference |
| Matcher.MatchesAreCompatibleMatches | api/src/main/java/org/openmrs/module/pihmalawi/reporting/definition/dataset/evaluator/FindPatientsToMergeSoundexDataSetEvaluator.java:126-145 | with the intended clause, an id is a candidate if and only if it is a match and gender-compatible |
| Matcher.CandidateConditions | api/src/main/java/org/openmrs/module/pihmalawi/reporting/definition/dataset/evaluator/FindPatientsToMergeSoundexDataSetEvaluator.java:64-74 | no candidate is the reference. Every candidate is a patient in the pool, and neither it nor the reference is a user |
| Matcher.MatchSymmetric | api/src/main/java/org/openmrs/module/pihmalawi/reporting/definition/dataset/evaluator/FindPatientsToMergeSoundexDataSetEvaluator.java:136-141 | for two patients of the pool, each is a kept match of the other or neither is |
| Matcher.ExampleMatches | api/src/main/java/org/openmrs/module/pihmalawi/reporting/definition/dataset/evaluator/FindPatientsToMergeSoundexDataSetEvaluator.java:62-74 | in a three-patient example, the plain pairing pairs patient 1 with patient 2 only; the swapped pairing pairs 1 with 3, whose gender excludes her |
| Matcher.ExampleSoundexMatches | api/src/main/java/org/openmrs/module/pihmalawi/reporting/definition/dataset/evaluator/FindPatientsToMergeSoundexDataSetEvaluator.java:126-145 | in that example patient 1's candidates are exactly [2] in plain mode and none in swap mode |
| Report.EncountersOfTypes | api/src/main/java/org/openmrs/module/pihmalawi/reporting/definition/dataset/evaluator/FindPatientsToMergeSoundexDataSetEvaluator.java:180 | the listed encounters are exactly those of the summary types; with no types given the list is returned unchanged |
| Report.EncountersOfTypesFirst | api/src/main/java/org/openmrs/module/pihmalawi/reporting/definition/dataset/evaluator/FindPatientsToMergeSoundexDataSetEvaluator.java:180-183 | filtering keeps the listed order at the front: the first encounter kept is the earliest listed one of the summary types |
| Report.EncountersOfTypesLast | api/src/main/java/org/openmrs/module/pihmalawi/reporting/definition/dataset/evaluator/FindPatientsToMergeSoundexDataSetEvaluator.java:180-185 | filtering keeps the listed order at the back: the last encounter kept is the latest listed one of the summary types |
| Report.FirstLastEncounter | api/src/main/java/org/openmrs/module/pihmalawi/reporting/definition/dataset/evaluator/FindPatientsToMergeSoundexDataSetEvaluator.java:178-188 | empty exactly when there are no encounters, otherwise from the first listed encounter to the last |
| Report.Summarize | api/src/main/java/org/openmrs/module/pihmalawi/reporting/definition/dataset/evaluator/FindPatientsToMergeSoundexDataSetEvaluator.java:151-158 | loading a patient's summary fails exactly when it has no address, and otherwise shows its first address's village |
| Report.SummarySpan | api/src/main/java/org/openmrs/module/pihmalawi/reporting/definition/dataset/evaluator/FindPatientsToMergeSoundexDataSetEvaluator.java:178-188 | a loaded summary shows no encounters exactly when the patient has none of the summary types, and otherwise the span from its earliest listed encounter of those types to its latest |
| Report.ColumnsDistinct | api/src/main/java/org/openmrs/module/pihmalawi/reporting/definition/dataset/evaluator/FindPatientsToMergeSoundexDataSetEvaluator.java:105-117 | "potential match_i" columns are equal only for equal i, and differ from "#" and "Error" |
| Report.ErrorCellsDistinct | api/src/main/java/org/openmrs/module/pihmalawi/reporting/definition/dataset/evaluator/FindPatientsToMergeSoundexDataSetEvaluator.java:118 | error cells of two patients are equal only when the patients are the same |
| Report.MatchCells | api/src/main/java/org/openmrs/module/pihmalawi/reporting/definition/dataset/evaluator/FindPatientsToMergeSoundexDataSetEvaluator.java:107-119 | the candidate cells of a row number at most one per candidate, and at least one when there are candidates; the two lemmas below say which cells they are |
| Report.MatchCellsWhenLoadable | api/src/main/java/org/openmrs/module/pihmalawi/reporting/definition/dataset/evaluator/FindPatientsToMergeSoundexDataSetEvaluator.java:107-112 | when every candidate loads there is one merge cell per candidate, in order, numbered consecutively, each showing that candidate's summary |
| Report.MatchCellsAtFailure | api/src/main/java/org/openmrs/module/pihmalawi/reporting/definition/dataset/evaluator/FindPatientsToMergeSoundexDataSetEvaluator.java:107-120 | when some candidate fails to load, the cells are numbered merge cells for the candidates before the first failing one, then the error cell |
| Report.MatchCellsLinkToCandidates | api/src/main/java/org/openmrs/module/pihmalawi/reporting/definition/dataset/evaluator/FindPatientsToMergeSoundexDataSetEvaluator.java:108-110 | every merge cell links the reference to one of its candidates |
| Report.PatientRow | api/src/main/java/org/openmrs/module/pihmalawi/reporting/definition/dataset/evaluator/FindPatientsToMergeSoundexDataSetEvaluator.java:100-120 | a patient gets no row exactly when its query succeeds with no candidates. A failing query gives the row holding only the error cell |
| Report.RowOfCellsWellFormed | api/src/main/java/org/openmrs/module/pihmalawi/reporting/definition/dataset/evaluator/FindPatientsToMergeSoundexDataSetEvaluator.java:104-120 | a "#" cell followed by the candidate cells has the shape `WellFormedRow` defines |
| Report.LoadableRowWellFormed | api/src/main/java/org/openmrs/module/pihmalawi/reporting/definition/dataset/evaluator/FindPatientsToMergeSoundexDataSetEvaluator.java:104-113 | the same, when every candidate loads |
| Report.FailingRowWellFormed | api/src/main/java/org/openmrs/module/pihmalawi/reporting/definition/dataset/evaluator/FindPatientsToMergeSoundexDataSetEvaluator.java:104-120 | the same, when a candidate fails to load |
| Report.PatientRowWellFormed | api/src/main/java/org/openmrs/module/pihmalawi/reporting/definition/dataset/evaluator/FindPatientsToMergeSoundexDataSetEvaluator.java:100-120 | every row is either the error cell alone, or the "#" cell followed by "potential match_1".."potential match_k" and possibly a final error cell |
| Report.PatientRowComplete | api/src/main/java/org/openmrs/module/pihmalawi/reporting/definition/dataset/evaluator/FindPatientsToMergeSoundexDataSetEvaluator.java:104-113 | when everything loads, the row has the "#" cell of the reference and one numbered merge cell per candidate, in order |
| Report.PatientRowAtFailure | api/src/main/java/org/openmrs/module/pihmalawi/reporting/definition/dataset/evaluator/FindPatientsToMergeSoundexDataSetEvaluator.java:116-120 | when the reference or a candidate cannot be loaded, the row is still added and ends with "Error while loading patient <id>" |
| Report.PatientRowLinksToCandidates | api/src/main/java/org/openmrs/module/pihmalawi/reporting/definition/dataset/evaluator/FindPatientsToMergeSoundexDataSetEvaluator.java:108-110 | every merge link of a row goes from the row's patient to one of its candidates |
| Evaluator.CollectExactly | api/src/main/java/org/openmrs/module/pihmalawi/reporting/definition/dataset/evaluator/FindPatientsToMergeSoundexDataSetEvaluator.java:113-119 | a row is in the data set exactly when some patient's step added it |
| Evaluator.ReportRowsAppend | api/src/main/java/org/openmrs/module/pihmalawi/reporting/definition/dataset/evaluator/FindPatientsToMergeSoundexDataSetEvaluator.java:99-121 | the report of two runs of patients put together is the two reports put together |
| Evaluator.ReportRowsSingle | api/src/main/java/org/openmrs/module/pihmalawi/reporting/definition/dataset/evaluator/FindPatientsToMergeSoundexDataSetEvaluator.java:99-121 | a single patient contributes its row if it has one and nothing otherwise |
| Evaluator.NoAddressGivesErrorRow | api/src/main/java/org/openmrs/module/pihmalawi/reporting/definition/dataset/evaluator/FindPatientsToMergeSoundexDataSetEvaluator.java:103-120 | a reference without an address gets no row when its query succeeds with no candidates, and the error row alone otherwise |
| Evaluator.FailingPatientIsolated | api/src/main/java/org/openmrs/module/pihmalawi/reporting/definition/dataset/evaluator/FindPatientsToMergeSoundexDataSetEvaluator.java:99-121 | a patient without an address whose query does not come back empty adds its error row, and the patients before and after it keep exactly their own rows |
| Evaluator.AsWrittenReportIsAllErrors | api/src/main/java/org/openmrs/module/pihmalawi/reporting/definition/dataset/evaluator/FindPatientsToMergeSoundexDataSetEvaluator.java:116-120 | with the clause as written, every reference patient gets exactly one row, its error cell |
| Evaluator.RowOfSound | api/src/main/java/org/openmrs/module/pihmalawi/reporting/definition/dataset/evaluator/FindPatientsToMergeSoundexDataSetEvaluator.java:99-121 | with the intended clause, a patient's row has the shape `WellFormedRow` defines and links only to its gender-compatible matches |
| Evaluator.ReportRowsSound | api/src/main/java/org/openmrs/module/pihmalawi/reporting/definition/dataset/evaluator/FindPatientsToMergeSoundexDataSetEvaluator.java:99-121 | with the intended clause (`MatchWhere`), every row of the report belongs to one reference patient, has its shape and links only to its gender-compatible matches |
| Evaluator.Evaluate | api/src/main/java/org/openmrs/module/pihmalawi/reporting/definition/dataset/evaluator/FindPatientsToMergeSoundexDataSetEvaluator.java:45-124 | with the intended clause (`MatchWhere`), the run gives at most one row per patient of the cohort. Each row has the shape `WellFormedRow` defines for one such patient and links it only to gender-compatible matches: never itself, only patients of the pool, and no user accounts. When the pool is drawn by encounter types, no linked candidate is a member of the cohort |
| Evaluator.AddRows | api/src/main/java/org/openmrs/module/pihmalawi/reporting/definition/dataset/evaluator/FindPatientsToMergeSoundexDataSetEvaluator.java:97-121 | the loop adds, in order, the row of each reference patient that has one, and no more rows than there are patients |

## Left out

- HTML rendering (`linkifyId`, `linkifyMerge`): a cell holds the patient summary the link would show, not its markup or the server URL.
- Names, age (`getAge`) and the program outcome (`currentOutcome` and `ProgramHelper`): the evaluator builds these from host services (`getGivenName`, `getAge`, `getMostRecentStateAtDate`), and they are left out; a summary keeps id, gender, village and encounter span.
- Date formatting (`formatDate`): encounter datetimes are kept as integers.
- The phonetic encoder: name codes are read precomputed from the host's `person_name_code` table and only compared with SQL `=`, under which a NULL code equals nothing.
- SQL execution: the query is modelled as its list of conditions and `and`s. The database is modelled as accepting exactly a well-formed conjunction and evaluating it over the snapshot. Other syntax, such as the missing space before the name-pairing fragment, is not modelled.
- The `users` sub-query: a person whose id is a user id is modelled by the person's `isUser` flag.
- Cohorts.LimitCohort: the host's `CohortUtil.limitCohort` is not visible; which members it keeps is a choice of this model (the lowest ids).
- Order of the candidates: `HashMap.values()` has no specified order; the model lists candidates in ascending id order. Reference patients are likewise walked in ascending id order.
- Gender: a null gender is modelled as the empty string, which `StringUtils.isEmpty` treats the same way. Case folding covers ASCII letters only.
- Failures: the modelled exceptions are a query the database rejects and a patient with no address (`currentVillage` asking for the first address). Other host failures, such as a missing patient object, are not modelled.
- Service lookups (`Context.get...Service`) and the `EvaluationContext` passed to the query: the snapshot stands in for all of them.
- `getPatientsHavingEncounters`: the host's cohort query is not part of this model; `Persons.PatientsHavingEncounters` stands in for it as the patients of the snapshot that have an encounter of one of the types.
- Empty type lists: the code only tests the encounter-type lists for null. What the host services return for an empty list is not visible; the model reads an empty list as matching no encounter, so the pool is empty and every summary span is empty.
- Evaluator.ReportRows: its own contract only bounds the number of rows; what the rows are is stated by `Evaluator.ReportRowsSound`, `Evaluator.FailingPatientIsolated` and `Evaluator.AddRows`.

Two behaviours of the code worth noting:

- Summary encounters: the code takes the first and the last encounter in the order the service returns them, whatever that order is.
- Failure rows: a failure after some candidate cells were added leaves those cells in the row before the error cell, because the catch block reuses the row under construction.

## Findings

| source | as written | input that shows it | evidently intended | confidence | as-written member | corrected member |
|---|---|---|---|---|---|---|
| api/src/main/java/org/openmrs/module/pihmalawi/reporting/definition/dataset/evaluator/FindPatientsToMergeSoundexDataSetEvaluator.java:64-70 | the WHERE fragments concatenate to `... and  and pn2.person_id = ...`, and the name-pairing fragment follows the patient join with no `and` between them | any reference patient, either swap setting: the clause is not a conjunction, so the query fails and the catch turns every row into the error row | the listed conditions joined by single `and`s | high, not executed | Query.AsWrittenRejected, Evaluator.AsWrittenReportIsAllErrors | Query.MatchWhereIsConjunction, Query.MatchWhereMeaning, Evaluator.Evaluate |

=== FILE: cohort.dfy ===
/** The population a report run scans and the pool its duplicates are drawn from
    (FindPatientsToMergeSoundexDataSetEvaluator.evaluate, before the per-patient loop). */
module Cohorts {
  import opened Wrappers
  import opened Persons
  import opened IdOrder

  /** The settings of the data set definition that the evaluator reads. An
      absent option stands for a null property. */
  datatype Definition = Definition(
    swapFirstLastName: bool,
    encounterTypesToLookForDuplicates: Option<set<EncounterType>>,
    identifierTypeRequired: Option<IdentifierType>,
    encounterTypesForSummary: Option<set<EncounterType>>)

  /** The evaluation context: an optional base cohort and an optional size limit. */
  datatype EvaluationContext = EvaluationContext(baseCohort: Option<set<Id>>, limit: Option<nat>)

  /** What a missing context is replaced with: no base cohort and no limit. */
  const DefaultContext := EvaluationContext(None, None)

  /** Trims a cohort to at most `n` members. Which members survive is the host
      utility's choice; the model keeps the `n` lowest ids. */
  function LimitCohort(cohort: set<Id>, n: nat): (r: set<Id>)
    ensures r <= cohort
    ensures |r| == if |cohort| <= n then |cohort| else n
    ensures |cohort| <= n ==> r == cohort
    ensures forall x, y :: x in r && y in cohort - r ==> x < y
  {
    var ordered := SortedIds(cohort);
    var k := if |cohort| <= n then |cohort| else n;
    MembersOfStrictlyIncreasing(ordered[..k]);
    assert |cohort| <= n ==> ordered[..k] == ordered;
    Members(ordered[..k])
  }

  /** The cohort to scan: the context's base cohort, or every patient when the
      context or its base cohort is missing; then the context's limit, if any. */
  function ResolveCohort(ctx: Option<EvaluationContext>, store: Store): (cohort: set<Id>)
    ensures var c := ctx.GetOr(DefaultContext);
      && (c.baseCohort.None? ==> cohort <= PatientIds(store))
      && (c.baseCohort.Some? ==> cohort <= c.baseCohort.value)
      && (c.limit.None? ==> cohort == c.baseCohort.GetOr(PatientIds(store)))
      && (c.limit.Some? ==> |cohort| == var base := c.baseCohort.GetOr(PatientIds(store));
                                       if |base| <= c.limit.value then |base| else c.limit.value)
      && (c.limit.Some? && |c.baseCohort.GetOr(PatientIds(store))| <= c.limit.value
          ==> cohort == c.baseCohort.GetOr(PatientIds(store)))
  {
    var c := ctx.GetOr(DefaultContext);
    var base := c.baseCohort.GetOr(PatientIds(store));
    match c.limit
    case None => base
    case Some(n) => LimitCohort(base, n)
  }

  /** The ids among which duplicates are searched. Without encounter types it is
      the cohort itself. With them it is every patient having an encounter of
      those types, less those lacking the required identifier type (when one is
      configured), less every member of the cohort. */
  function CandidatePool(def: Definition, store: Store, cohort: set<Id>): (pool: set<Id>)
    ensures def.encounterTypesToLookForDuplicates.None? ==> pool == cohort
    ensures def.encounterTypesToLookForDuplicates.Some? ==>
      && pool !! cohort
      && pool <= PatientsHavingEncounters(store, def.encounterTypesToLookForDuplicates.value)
    ensures def.encounterTypesToLookForDuplicates.Some? && def.identifierTypeRequired.Some? ==>
      forall id :: id in pool ==> id in store && HasIdentifier(store[id], def.identifierTypeRequired.value)
    ensures def.encounterTypesToLookForDuplicates.Some? ==>
      forall id ::
        && id in PatientsHavingEncounters(store, def.encounterTypesToLookForDuplicates.value)
        && id !in cohort
        && (def.identifierTypeRequired.Some? ==> HasIdentifier(store[id], def.identifierTypeRequired.value))
        ==> id in pool
  {
    match def.encounterTypesToLookForDuplicates
    case None => cohort
    case Some(types) =>
      var having := PatientsHavingEncounters(store, types);
      var withoutIdentifier :=
        match def.identifierTypeRequired
        case None => {}
        case Some(t) => set id | id in having && !HasIdentifier(store[id], t);
      having - withoutIdentifier - cohort
  }

  /** The cohort members the host can load as patients. */
  function CohortPatients(store: Store, cohort: set<Id>): set<Id> {
    set id | id in cohort && id in store && store[id].isPatient
  }

  /** The patients the report walks through: the cohort members the host can
      load as patients, each once, in ascending id order. */
  function ReferencePatients(store: Store, cohort: set<Id>): (refs: seq<Id>)
    ensures StrictlyIncreasing(refs)
    ensures forall id :: id in refs <==> id in cohort && id in store && store[id].isPatient
    ensures |refs| == |CohortPatients(store, cohort)|
    ensures forall i :: 0 <= i < |refs| ==> refs[i] in store
  {
    SortedIds(CohortPatients(store, cohort))
  }
}

=== FILE: evaluator.dfy ===
/** `evaluate`: the whole report, as a function over the snapshot and as the
    loop that fills the data set one reference patient at a time. */
module Evaluator {
  import opened Wrappers
  import opened Persons
  import opened IdOrder
  import opened Cohorts
  import opened Query
  import opened Matcher
  import opened Report

  /** The present values of a sequence of options, in order. */
  function Collect<T>(opts: seq<Option<T>>): (r: seq<T>)
    ensures |r| <= |opts|
    decreases |opts|
  {
    if |opts| == 0 then []
    else
      var front := Collect(opts[..|opts| - 1]);
      match opts[|opts| - 1]
      case None => front
      case Some(v) => front + [v]
  }

  lemma {:induction false} CollectAppend<T>(a: seq<Option<T>>, b: seq<Option<T>>)
    ensures Collect(a + b) == Collect(a) + Collect(b)
    decreases |b|
  {
    if |b| == 0 {
      assert a + b == a;
    } else {
      var b' := b[..|b| - 1];
      assert (a + b)[..|a + b| - 1] == a + b';
      assert (a + b)[|a + b| - 1] == b[|b| - 1];
      CollectAppend(a, b');
    }
  }

  /** Collecting one more option adds its value, if it has one. */
  lemma CollectStep<T>(opts: seq<Option<T>>, i: nat)
    requires i < |opts|
    ensures Collect(opts[..i + 1]) == Collect(opts[..i]) + (if opts[i].Some? then [opts[i].value] else [])
  {
    assert opts[..i + 1][..i] == opts[..i];
  }

  lemma {:induction false} CollectExactly<T>(opts: seq<Option<T>>)
    ensures forall v :: v in Collect(opts) <==> exists i :: 0 <= i < |opts| && opts[i] == Some(v)
    decreases |opts|
  {
    if |opts| > 0 {
      var front := opts[..|opts| - 1];
      CollectExactly(front);
      forall v
        ensures v in Collect(opts) <==> exists i :: 0 <= i < |opts| && opts[i] == Some(v)
      {
        if exists i :: 0 <= i < |opts| && opts[i] == Some(v) {
          var i :| 0 <= i < |opts| && opts[i] == Some(v);
          if i < |opts| - 1 {
            assert opts[i] == front[i];
          }
        }
        if v in Collect(front) {
          var i :| 0 <= i < |front| && front[i] == Some(v);
          assert opts[i] == front[i];
        }
      }
    }
  }

  lemma {:induction false} CollectAllPresent<T>(opts: seq<Option<T>>)
    requires forall i :: 0 <= i < |opts| ==> opts[i].Some?
    ensures |Collect(opts)| == |opts|
    ensures forall i :: 0 <= i < |opts| ==> Collect(opts)[i] == opts[i].value
    decreases |opts|
  {
    if |opts| > 0 {
      var front := opts[..|opts| - 1];
      CollectAllPresent(front);
      forall i | 0 <= i < |opts| ensures Collect(opts)[i] == opts[i].value {
        if i < |opts| - 1 {
          assert opts[i] == front[i];
        }
      }
    }
  }

  /** The row of one reference patient, from the outcome of its own query. */
  function RowOf(ts: seq<Token>, store: Store, pool: set<Id>, types: Option<set<EncounterType>>, reference: Id): Option<Row>
    requires reference in store
  {
    PatientRow(store, types, reference, SoundexMatches(ts, store, pool, reference))
  }

  /** The row outcome of every reference patient, in order. */
  function PatientRows(ts: seq<Token>, store: Store, pool: set<Id>, types: Option<set<EncounterType>>, refs: seq<Id>): (opts: seq<Option<Row>>)
    requires AllInStore(store, refs)
    ensures |opts| == |refs|
    ensures forall i :: 0 <= i < |refs| ==> opts[i] == RowOf(ts, store, pool, types, refs[i])
  {
    seq(|refs|, i requires 0 <= i < |refs| => RowOf(ts, store, pool, types, refs[i]))
  }

  /** The report: the rows of the reference patients that have one, in order. */
  function ReportRows(ts: seq<Token>, store: Store, pool: set<Id>, types: Option<set<EncounterType>>, refs: seq<Id>): (rows: seq<Row>)
    requires AllInStore(store, refs)
    ensures |rows| <= |refs|
  {
    Collect(PatientRows(ts, store, pool, types, refs))
  }

  /** Patients are processed independently: the rows of a concatenation are
      the rows of its parts. */
  lemma ReportRowsAppend(ts: seq<Token>, store: Store, pool: set<Id>, types: Option<set<EncounterType>>, a: seq<Id>, b: seq<Id>)
    requires AllInStore(store, a) && AllInStore(store, b)
    ensures ReportRows(ts, store, pool, types, a + b) == ReportRows(ts, store, pool, types, a) + ReportRows(ts, store, pool, types, b)
  {
    var pa, pb := PatientRows(ts, store, pool, types, a), PatientRows(ts, store, pool, types, b);
    var pab := PatientRows(ts, store, pool, types, a + b);
    forall i | 0 <= i < |pab| ensures pab[i] == (pa + pb)[i] {
      if i < |a| {
        assert (a + b)[i] == a[i];
      } else {
        assert (a + b)[i] == b[i - |a|];
      }
    }
    assert pab == pa + pb;
    CollectAppend(pa, pb);
  }

  /** The report of a single reference patient is its row, if it has one. */
  lemma ReportRowsSingle(ts: seq<Token>, store: Store, pool: set<Id>, types: Option<set<EncounterType>>, p: Id)
    requires p in store
    ensures ReportRows(ts, store, pool, types, [p]) ==
      match RowOf(ts, store, pool, types, p)
      case None => []
      case Some(row) => [row]
  {
    var opts := PatientRows(ts, store, pool, types, [p]);
    assert opts[..0] == [];
  }

  /** A reference patient without an address gets no row when its query
      succeeds with no candidates, and the error row alone otherwise. */
  lemma NoAddressGivesErrorRow(ts: seq<Token>, store: Store, pool: set<Id>, types: Option<set<EncounterType>>, p: Id)
    requires p in store && |store[p].villages| == 0
    ensures RowOf(ts, store, pool, types, p) ==
      if SoundexMatches(ts, store, pool, p) == Success([]) then None else Some([ErrorCell(p)])
  {
  }

  /** A failing reference patient adds its error row, and the patients before
      and after it keep their rows. */
  lemma FailingPatientIsolated(ts: seq<Token>, store: Store, pool: set<Id>, types: Option<set<EncounterType>>, before: seq<Id>, p: Id, after: seq<Id>)
    requires AllInStore(store, before) && p in store && AllInStore(store, after)
    requires |store[p].villages| == 0
    ensures SoundexMatches(ts, store, pool, p) != Success([]) ==>
      ReportRows(ts, store, pool, types, before + [p] + after)
      == ReportRows(ts, store, pool, types, before)
         + [[ErrorCell(p)]]
         + ReportRows(ts, store, pool, types, after)
  {
    NoAddressGivesErrorRow(ts, store, pool, types, p);
    ReportRowsSingle(ts, store, pool, types, p);
    ReportRowsAppend(ts, store, pool, types, before, [p]);
    ReportRowsAppend(ts, store, pool, types, before + [p], after);
  }

  /** With the query as written every reference patient gets the error row and
      nothing else, whatever the data. */
  lemma AsWrittenReportIsAllErrors(swap: bool, store: Store, pool: set<Id>, types: Option<set<EncounterType>>, refs: seq<Id>)
    requires AllInStore(store, refs)
    ensures var rows := ReportRows(AsWrittenWhere(swap), store, pool, types, refs);
      && |rows| == |refs|
      && forall i :: 0 <= i < |refs| ==> rows[i] == [ErrorCell(refs[i])]
  {
    var opts := PatientRows(AsWrittenWhere(swap), store, pool, types, refs);
    forall i | 0 <= i < |refs| ensures opts[i] == Some([ErrorCell(refs[i])]) {
      AsWrittenRejected(swap, store, pool, refs[i]);
    }
    CollectAllPresent(opts);
  }

  /** Every merge link of `row` leads from `reference` to a gender-compatible match of it. */
  predicate LinksAreMatches(row: Row, store: Store, pool: set<Id>, swap: bool, reference: Id)
    requires reference in store
  {
    forall k :: 0 <= k < |row| && row[k].value.MergeLink? ==>
      && row[k].value.reference == reference
      && var c := row[k].value.candidate.id;
         IsMatch(store, pool, swap, reference, c) && GenderCompatible(store[c].gender, store[reference].gender)
  }

  /** The row of one reference patient, with the intended query, is well formed
      and links only to its gender-compatible matches. */
  lemma RowOfSound(swap: bool, store: Store, pool: set<Id>, types: Option<set<EncounterType>>, reference: Id)
    requires reference in store
    ensures var row := RowOf(MatchWhere(swap), store, pool, types, reference);
      row.Some? ==> WellFormedRow(row.value, reference) && LinksAreMatches(row.value, store, pool, swap, reference)
  {
    var matches := SoundexMatches(MatchWhere(swap), store, pool, reference);
    MatchesAreCompatibleMatches(swap, store, pool, reference);
    if PatientRow(store, types, reference, matches).Some? {
      PatientRowWellFormed(store, types, reference, matches);
      PatientRowLinksToCandidates(store, types, reference, matches.value);
    }
  }

  /** Every row of the report belongs to one reference patient: it has the
      shape `WellFormedRow` defines for it and links only to its gender-compatible matches. */
  lemma ReportRowsSound(swap: bool, store: Store, pool: set<Id>, types: Option<set<EncounterType>>, refs: seq<Id>)
    requires AllInStore(store, refs)
    ensures forall row :: row in ReportRows(MatchWhere(swap), store, pool, types, refs) ==>
      exists i :: 0 <= i < |refs| && WellFormedRow(row, refs[i]) && LinksAreMatches(row, store, pool, swap, refs[i])
  {
    var opts := PatientRows(MatchWhere(swap), store, pool, types, refs);
    CollectExactly(opts);
    forall row | row in Collect(opts)
      ensures exists i :: 0 <= i < |refs| && WellFormedRow(row, refs[i]) && LinksAreMatches(row, store, pool, swap, refs[i])
    {
      var i :| 0 <= i < |opts| && opts[i] == Some(row);
      RowOfSound(swap, store, pool, types, refs[i]);
    }
  }

  /** The report run with the intended clause (`MatchWhere`) in place of the
      clause as written, which the database rejects (see
      `AsWrittenReportIsAllErrors`): resolve the cohort, build the candidate
      pool, then add the row of each reference patient that has one. There is at most one row
      per patient of the cohort; each row has the shape `WellFormedRow` defines
      for one such patient and links it only to gender-compatible matches from
      the pool; and when the pool is drawn by encounter types, no linked
      candidate is a member of the cohort. */
  method Evaluate(def: Definition, ctx: Option<EvaluationContext>, store: Store) returns (rows: seq<Row>)
    ensures var cohort := ResolveCohort(ctx, store);
      rows == ReportRows(MatchWhere(def.swapFirstLastName), store, CandidatePool(def, store, cohort),
                         def.encounterTypesForSummary, ReferencePatients(store, cohort))
    ensures |rows| <= |CohortPatients(store, ResolveCohort(ctx, store))|
    ensures var cohort := ResolveCohort(ctx, store);
      forall row :: row in rows ==> exists p ::
        && p in CohortPatients(store, cohort) && p in store
        && WellFormedRow(row, p)
        && LinksAreMatches(row, store, CandidatePool(def, store, cohort), def.swapFirstLastName, p)
    ensures def.encounterTypesToLookForDuplicates.Some? ==>
      forall row: Row, k: int :: row in rows && 0 <= k < |row| && row[k].value.MergeLink? ==>
        row[k].value.candidate.id !in ResolveCohort(ctx, store)
  {
    var cohort := ResolveCohort(ctx, store);
    var pool := CandidatePool(def, store, cohort);
    var refs := ReferencePatients(store, cohort);
    var swap := def.swapFirstLastName;
    rows := AddRows(MatchWhere(swap), store, pool, def.encounterTypesForSummary, refs);
    ReportRowsSound(swap, store, pool, def.encounterTypesForSummary, refs);
    forall row | row in rows
      ensures exists p ::
        && p in CohortPatients(store, cohort) && p in store
        && WellFormedRow(row, p) && LinksAreMatches(row, store, pool, swap, p)
    {
      var i :| 0 <= i < |refs| && WellFormedRow(row, refs[i]) && LinksAreMatches(row, store, pool, swap, refs[i]);
      assert refs[i] in refs;
    }
    if def.encounterTypesToLookForDuplicates.Some? {
      forall row: Row, k: int | row in rows && 0 <= k < |row| && row[k].value.MergeLink?
        ensures row[k].value.candidate.id !in cohort
      {
        var i :| 0 <= i < |refs| && LinksAreMatches(row, store, pool, swap, refs[i]);
        assert row[k].value.candidate.id in pool;
      }
    }
  }

  /** The loop over the reference patients: query each one's candidates and
      add its row when it has one. */
  method AddRows(ts: seq<Token>, store: Store, pool: set<Id>, types: Option<set<EncounterType>>, refs: seq<Id>) returns (rows: seq<Row>)
    requires AllInStore(store, refs)
    ensures rows == ReportRows(ts, store, pool, types, refs)
    ensures |rows| <= |refs|
  {
    ghost var opts := PatientRows(ts, store, pool, types, refs);
    rows := [];
    var i := 0;
    while i < |refs|
      invariant 0 <= i <= |refs|
      invariant rows == Collect(opts[..i])
    {
      var matches := SoundexMatches(ts, store, pool, refs[i]);
      var row := PatientRow(store, types, refs[i], matches);
      assert row == opts[i];
      CollectStep(opts, i);
      if row.Some? {
        rows := rows + [row.value];
      }
      i := i + 1;
    }
    assert opts[..|refs|] == opts;
  }
}

=== FILE: ids.dfy ===
/** Enumerating a set of ids in ascending order. The host hands out cohorts and
    query results as unordered sets and hash maps; the model fixes ascending id
    as the one deterministic order it iterates them in. */
module IdOrder {
  import opened Persons

  predicate StrictlyIncreasing(s: seq<Id>) {
    forall i, j :: 0 <= i < j < |s| ==> s[i] < s[j]
  }

  /** Every non-empty set of ids has a least member. */
  lemma {:induction false} LeastMember(s: set<Id>) returns (m: Id)
    requires s != {}
    ensures m in s && forall x :: x in s ==> m <= x
    decreases s
  {
    var y :| y in s;
    var rest := s - {y};
    m := y;
    if rest != {} {
      var r := LeastMember(rest);
      if r < y {
        m := r;
      }
    }
    forall x | x in s
      ensures m <= x
    {
      if x != y {
        assert x in rest;
      }
    }
  }

  lemma MinimumExists(s: set<Id>)
    requires s != {}
    ensures exists m :: m in s && forall x :: x in s ==> m <= x
  {
    var m := LeastMember(s);
  }

  /** The least id of a non-empty set. */
  function Minimum(s: set<Id>): (m: Id)
    requires s != {}
    ensures m in s && forall x :: x in s ==> m <= x
  {
    MinimumExists(s);
    var m :| m in s && forall x | x in s :: m <= x;
    m
  }

  /** The members of `s`, each once, in ascending order. */
  function SortedIds(s: set<Id>): (r: seq<Id>)
    ensures StrictlyIncreasing(r)
    ensures forall x :: x in r <==> x in s
    ensures |r| == |s|
    decreases |s|
  {
    if s == {} then []
    else
      var m := Minimum(s);
      [m] + SortedIds(s - {m})
  }

  /** Two ascending enumerations of the same ids are the same sequence. */
  lemma {:induction false} StrictlyIncreasingUnique(a: seq<Id>, b: seq<Id>)
    requires StrictlyIncreasing(a) && StrictlyIncreasing(b)
    requires forall x :: x in a <==> x in b
    ensures a == b
    decreases |a|
  {
    assert |a| == 0 <==> |b| == 0 by {
      if |a| > 0 {
        assert a[0] in b;
      }
      if |b| > 0 {
        assert b[0] in a;
      }
    }
    if |a| > 0 {
      assert a[0] == b[0] by {
        assert a[0] in b && b[0] in a;
      }
      forall x ensures x in a[1..] <==> x in b[1..] {
        if x in a[1..] {
          assert x in b && x != b[0];
        }
        if x in b[1..] {
          assert x in a && x != a[0];
        }
      }
      StrictlyIncreasingUnique(a[1..], b[1..]);
      assert a == [a[0]] + a[1..];
      assert b == [b[0]] + b[1..];
    }
  }

  /** The ids a sequence lists. */
  function Members(s: seq<Id>): set<Id> {
    set x | x in s
  }

  /** A sequence without repetitions lists exactly as many ids as it is long. */
  lemma {:induction false} MembersOfStrictlyIncreasing(s: seq<Id>)
    requires StrictlyIncreasing(s)
    ensures |Members(s)| == |s|
    decreases |s|
  {
    if |s| > 0 {
      MembersOfStrictlyIncreasing(s[1..]);
      assert Members(s) == {s[0]} + Members(s[1..]);
      assert s[0] !in Members(s[1..]);
    }
  }
}

=== FILE: matcher.dfy ===
/** `soundexMatches`: run the duplicate query for one reference patient and keep
    the candidates whose gender does not contradict the reference's. */
module Matcher {
  import opened Wrappers
  import opened Text
  import opened Persons
  import opened IdOrder
  import opened Query

  /** `StringUtils.isEmpty`; a null gender is modelled as the empty string. */
  predicate IsEmpty(s: string) {
    |s| == 0
  }

  /** A candidate is kept when either gender is missing or the two agree up to case. */
  predicate GenderCompatible(candidate: string, reference: string) {
    IsEmpty(candidate) || IsEmpty(reference) || EqualsIgnoreCase(candidate, reference)
  }

  /** Gender compatibility does not depend on which side is the reference. */
  lemma GenderCompatibleSymmetric(a: string, b: string)
    ensures GenderCompatible(a, b) <==> GenderCompatible(b, a)
  {
    EqualsIgnoreCaseIsEquivalence(a, b, b);
    EqualsIgnoreCaseIsEquivalence(b, a, a);
  }

  /** The candidates of one reference patient, each id once, in ascending order;
      a failure when the database rejects the query. */
  function SoundexMatches(ts: seq<Token>, store: Store, pool: set<Id>, reference: Id): (r: Result<seq<Id>, QueryError>)
    requires reference in store
    ensures r.Success? <==> IsConjunction(ts)
    ensures r.Success? ==> StrictlyIncreasing(r.value)
    ensures r.Success? ==> forall c :: c in r.value ==>
      c in store && GenderCompatible(store[c].gender, store[reference].gender)
  {
    var found :- RunQuery(ts, store, pool, reference);
    var kept := set c | c in found && GenderCompatible(found[c], store[reference].gender);
    Success(SortedIds(kept))
  }

  /** With the intended query, the candidates are exactly the gender-compatible
      matches: never the reference itself, always from the pool, neither side a
      user account, the names paired as the swap flag says. */
  lemma MatchesAreCompatibleMatches(swap: bool, store: Store, pool: set<Id>, reference: Id)
    requires reference in store
    ensures var r := SoundexMatches(MatchWhere(swap), store, pool, reference);
      && r.Success?
      && (forall c :: c in r.value <==>
            IsMatch(store, pool, swap, reference, c) && GenderCompatible(store[c].gender, store[reference].gender))
  {
    MatchQueryResult(swap, store, pool, reference);
  }

  /** Every candidate the intended query yields satisfies the query's exclusions. */
  lemma CandidateConditions(swap: bool, store: Store, pool: set<Id>, reference: Id)
    requires reference in store
    ensures var r := SoundexMatches(MatchWhere(swap), store, pool, reference);
      r.Success? && forall c :: c in r.value ==>
        && c != reference
        && c in pool
        && c in store && !store[reference].isUser && !store[c].isUser
        && store[c].isPatient
  {
    MatchesAreCompatibleMatches(swap, store, pool, reference);
  }

  /** The pairing relation behind the report is symmetric: when both patients
      lie in the pool, each is a gender-compatible match of the other or neither is. */
  lemma MatchSymmetric(swap: bool, store: Store, pool: set<Id>, a: Id, b: Id)
    requires a in store && b in store
    requires a in pool && b in pool && store[a].isPatient && store[b].isPatient
    ensures IsMatch(store, pool, swap, a, b) && GenderCompatible(store[b].gender, store[a].gender)
        <==> IsMatch(store, pool, swap, b, a) && GenderCompatible(store[a].gender, store[b].gender)
  {
    GenderCompatibleSymmetric(store[a].gender, store[b].gender);
    if IsMatch(store, pool, swap, a, b) {
      var n1, n2 :| n1 in store[a].names && n2 in store[b].names && NameCodesMatch(swap, n1, n2);
      NameCodesMatchSymmetric(swap, n1, n2);
    }
    if IsMatch(store, pool, swap, b, a) {
      var n1, n2 :| n1 in store[b].names && n2 in store[a].names && NameCodesMatch(swap, n1, n2);
      NameCodesMatchSymmetric(swap, n1, n2);
    }
  }

  /** A small snapshot: two records of one man whose names have the same codes,
      and a woman whose codes are the same pair with given and family swapped. */
  const ExampleStore: Store := map[
    1 := Person({NameCode(Some("J500"), Some("B530"))}, "M", false, true, {}, ["Chilumba"], []),
    2 := Person({NameCode(Some("J500"), Some("B530"))}, "m", false, true, {}, ["Chilumba"], []),
    3 := Person({NameCode(Some("B530"), Some("J500"))}, "F", false, true, {}, ["Chilumba"], [])]

  /** In the example, patient 1's only duplicate is patient 2 (genders agree up
      to case); with swapped names patient 3 pairs with 1 but her gender
      excludes her, so the swapped mode finds nothing. */
  lemma ExampleMatches(c: Id)
    ensures IsMatch(ExampleStore, {1, 2, 3}, false, 1, c) && GenderCompatible(ExampleStore[c].gender, "M") <==> c == 2
    ensures !(IsMatch(ExampleStore, {1, 2, 3}, true, 1, c) && GenderCompatible(ExampleStore[c].gender, "M"))
  {
    var store := ExampleStore;
    assert store[1].names == {NameCode(Some("J500"), Some("B530"))};
    assert EqualsIgnoreCase("m", "M") by { assert LowerChar("m"[0]) == LowerChar("M"[0]); }
    if c == 2 {
      assert NameCodesMatch(false, NameCode(Some("J500"), Some("B530")), NameCode(Some("J500"), Some("B530")));
    }
    if c == 3 {
      assert !EqualsIgnoreCase("F", "M") by { assert LowerChar("F"[0]) != LowerChar("M"[0]); }
    }
  }

  /** The example's candidates of patient 1: patient 2 alone, or none with swapped names. */
  lemma ExampleSoundexMatches()
    ensures SoundexMatches(MatchWhere(false), ExampleStore, {1, 2, 3}, 1) == Success([2])
    ensures SoundexMatches(MatchWhere(true), ExampleStore, {1, 2, 3}, 1) == Success([])
  {
    var store, pool := ExampleStore, {1, 2, 3};
    assert store[1].gender == "M";
    MatchesAreCompatibleMatches(false, store, pool, 1);
    MatchesAreCompatibleMatches(true, store, pool, 1);
    forall c ensures c in SoundexMatches(MatchWhere(false), store, pool, 1).value <==> c in [2] {
      ExampleMatches(c);
    }
    forall c ensures c in SoundexMatches(MatchWhere(true), store, pool, 1).value <==> c in [] {
      ExampleMatches(c);
    }
    StrictlyIncreasingUnique(SoundexMatches(MatchWhere(false), store, pool, 1).value, [2]);
    StrictlyIncreasingUnique(SoundexMatches(MatchWhere(true), store, pool, 1).value, []);
  }
}

=== FILE: persons.dfy ===
/** The read-only snapshot of the host's patient data that one report run sees. */
module Persons {
  import opened Wrappers

  /** A `person_id`; the host's ids are positive auto-increment integers. */
  type Id = nat

  /** A precomputed phonetic key from the `person_name_code` table. The encoder
      that produced it is the host's; here a code is compared only for equality. */
  type Code = string

  type EncounterType = nat
  type IdentifierType = nat

  /** The codes of one `person_name` row: one code for the given name, one for
      the family name. A code column left NULL in the table is `None`. */
  datatype NameCode = NameCode(given: Option<Code>, family: Option<Code>)

  /** One encounter of a patient, as listed by the encounter service. */
  datatype Encounter = Encounter(encounterType: EncounterType, datetime: int)

  /** A person as the matcher reads it. The `gender` of a person with no recorded
      gender is the empty string: the matcher treats null and "" alike. `isUser`
      says the person id appears among the host's user accounts, `isPatient`
      that there is a `patient` row for it. `villages` lists the city/village of
      each address in the host's order; `encounters` are in the order the
      encounter service returns them. */
  datatype Person = Person(
    names: set<NameCode>,
    gender: string,
    isUser: bool,
    isPatient: bool,
    identifierTypes: set<IdentifierType>,
    villages: seq<string>,
    encounters: seq<Encounter>)

  /** All persons of the database, keyed by person id. */
  type Store = map<Id, Person>

  /** The ids of every patient in the store (`getAllPatients`). */
  function PatientIds(store: Store): (ids: set<Id>)
    ensures forall id :: id in ids <==> id in store && store[id].isPatient
  {
    set id | id in store && store[id].isPatient
  }

  /** `getPatientIdentifier(type) != null`. */
  predicate HasIdentifier(p: Person, t: IdentifierType) {
    t in p.identifierTypes
  }

  predicate HasEncounterOfTypes(p: Person, types: set<EncounterType>) {
    exists e :: e in p.encounters && e.encounterType in types
  }

  /** `getPatientsHavingEncounters(..., types, ...)` evaluated over the snapshot:
      the patients with at least one encounter of one of the given types. */
  function PatientsHavingEncounters(store: Store, types: set<EncounterType>): (ids: set<Id>)
    ensures ids <= PatientIds(store)
    ensures forall id :: id in ids <==> id in store && store[id].isPatient && HasEncounterOfTypes(store[id], types)
  {
    set id | id in store && store[id].isPatient && HasEncounterOfTypes(store[id], types)
  }
}

=== FILE: query.dfy ===
/** The duplicate query of the evaluator: its WHERE clause as a sequence of
    conditions and `and`s, the host's evaluation of it over the snapshot, and the
    match relation the clause is meant to express.

    Table aliases of the query: `pn1`/`p1` are a name row of the reference
    patient and that row's codes, `pn2`/`p2` a name row of a candidate and its
    codes, `person2`/`patient2` the candidate's person and patient rows. */
module Query {
  import opened Wrappers
  import opened Persons

  datatype NamePart = Given | Family

  function Part(n: NameCode, part: NamePart): Option<Code> {
    match part
    case Given => n.given
    case Family => n.family
  }

  /** SQL `=` on two nullable codes: true only when both are present and
      equal, so a NULL code equals nothing, not even another NULL. */
  predicate SqlEquals(a: Option<Code>, b: Option<Code>) {
    a.Some? && b.Some? && a.value == b.value
  }

  /** One condition of the WHERE clause. */
  datatype Condition =
    | DistinctPersons                                      // the two name rows belong to different persons
    | CandidateIsPerson                                    // the candidate's name row joins its person row
    | CandidateIsPatient                                   // the candidate's person row joins a patient row
    | CodesEqual(reference: NamePart, candidate: NamePart) // a code of the reference equals a code of the candidate
    | ReferenceNotUser                                     // the reference is not a user account
    | CandidateNotUser                                     // the candidate is not a user account
    | CandidateInPool                                      // the candidate is one of the pooled ids
    | ReferenceCodesJoin                                   // the reference's name row joins its codes
    | CandidateCodesJoin                                   // the candidate's name row joins its codes
    | IsReference                                          // the reference's name row is the reference patient's

  datatype Token = Cond(condition: Condition) | And

  /** Text the database accepts as a WHERE clause: conditions separated by
      single `and`s, so it begins and ends with a condition and conditions and
      `and`s alternate. */
  predicate IsConjunction(ts: seq<Token>) {
    && |ts| > 0 && ts[0].Cond? && ts[|ts| - 1].Cond?
    && forall i :: 0 <= i < |ts| - 1 ==> (ts[i].And? <==> ts[i + 1].Cond?)
  }

  /** The clause joining the given conditions, in order, with single `and`s. */
  function Conjoin(cs: seq<Condition>): (ts: seq<Token>)
    requires |cs| > 0
    ensures |ts| == 2 * |cs| - 1
    ensures forall c :: Cond(c) in ts <==> c in cs
    decreases |cs|
  {
    if |cs| == 1 then [Cond(cs[0])]
    else
      var rest := Conjoin(cs[1..]);
      assert forall c :: c in cs <==> c == cs[0] || c in cs[1..];
      [Cond(cs[0]), And] + rest
  }

  lemma {:induction false} ConjoinIsConjunction(cs: seq<Condition>)
    requires |cs| > 0
    ensures IsConjunction(Conjoin(cs))
    decreases |cs|
  {
    if |cs| > 1 {
      var rest := Conjoin(cs[1..]);
      ConjoinIsConjunction(cs[1..]);
      var ts := Conjoin(cs);
      assert ts == [Cond(cs[0]), And] + rest;
      forall i | 0 <= i < |ts| - 1
        ensures ts[i].And? <==> ts[i + 1].Cond?
      {
        if i >= 2 {
          assert ts[i] == rest[i - 2] && ts[i + 1] == rest[i - 1];
        }
      }
    }
  }

  /** The code comparisons chosen by the swap flag: given with given and
      family with family, or the reference's family with the candidate's given
      and the reference's given with the candidate's family. */
  function PairingConditions(swap: bool): seq<Condition> {
    if swap then [CodesEqual(Family, Given), CodesEqual(Given, Family)]
    else [CodesEqual(Given, Given), CodesEqual(Family, Family)]
  }

  /** The name-pairing fragment: its two comparisons joined by `and`. */
  function NamePairing(swap: bool): seq<Token> {
    var p := PairingConditions(swap);
    [Cond(p[0]), And, Cond(p[1])]
  }

  /** The conditions that follow the name pairing, each preceded by `and`. */
  const Trailer: seq<Token> :=
    [And, Cond(ReferenceNotUser), And, Cond(CandidateNotUser),
     And, Cond(CandidateInPool),
     And, Cond(ReferenceCodesJoin), And, Cond(CandidateCodesJoin), And, Cond(IsReference)]

  /** The WHERE clause as the evaluator appends its fragments: the first
      fragment ends in `and` and the next begins with one, and the name pairing
      follows the patient join with no `and` in between. */
  function AsWrittenWhere(swap: bool): (ts: seq<Token>)
    ensures |ts| == 2 * |MatchConditions(swap)| - 1
    ensures ts[1] == And && ts[2] == And
    ensures ts[5] == Cond(CandidateIsPatient) && ts[6] == Cond(PairingConditions(swap)[0])
  {
    [Cond(DistinctPersons), And]
    + [And, Cond(CandidateIsPerson)]
    + [And, Cond(CandidateIsPatient)]
    + NamePairing(swap)
    + Trailer
  }

  /** The conditions of the query in the order the fragments give them. */
  function MatchConditions(swap: bool): seq<Condition> {
    [DistinctPersons, CandidateIsPerson, CandidateIsPatient]
    + PairingConditions(swap)
    + [ReferenceNotUser, CandidateNotUser, CandidateInPool, ReferenceCodesJoin, CandidateCodesJoin, IsReference]
  }

  /** The WHERE clause the fragments evidently intend: the same conditions,
      each joined to the next by one `and`. */
  function MatchWhere(swap: bool): seq<Token> {
    Conjoin(MatchConditions(swap))
  }

  /** A `person_name` row joined with its `person_name_code` row. */
  datatype NameRow = NameRow(person: Id, code: NameCode)

  /** Every name row of the snapshot. */
  function NameRows(store: Store): set<NameRow> {
    set id, n | id in store && n in store[id].names :: NameRow(id, n)
  }

  predicate IsUser(store: Store, id: Id) {
    id in store && store[id].isUser
  }

  /** Whether one condition holds for the reference name row `r1` and the
      candidate name row `r2`. Name rows already carry their own codes, so the
      two code joins hold of every pair. */
  predicate Holds(c: Condition, store: Store, pool: set<Id>, reference: Id, r1: NameRow, r2: NameRow) {
    match c
    case DistinctPersons => r1.person != r2.person
    case CandidateIsPerson => r2.person in store
    case CandidateIsPatient => r2.person in store && store[r2.person].isPatient
    case CodesEqual(a, b) => SqlEquals(Part(r1.code, a), Part(r2.code, b))
    case ReferenceNotUser => !IsUser(store, r1.person)
    case CandidateNotUser => !IsUser(store, r2.person)
    case CandidateInPool => r2.person in pool
    case ReferenceCodesJoin => true
    case CandidateCodesJoin => true
    case IsReference => r1.person == reference
  }

  /** Every condition of the clause holds of the pair of name rows. */
  predicate AllHold(ts: seq<Token>, store: Store, pool: set<Id>, reference: Id, r1: NameRow, r2: NameRow) {
    forall t | t in ts && t.Cond? :: Holds(t.condition, store, pool, reference, r1, r2)
  }

  /** Some pair of name rows satisfies the clause with `candidate` on the candidate side. */
  predicate Selects(ts: seq<Token>, store: Store, pool: set<Id>, reference: Id, candidate: Id) {
    exists r1, r2 | r1 in NameRows(store) && r2 in NameRows(store) ::
      r2.person == candidate && AllHold(ts, store, pool, reference, r1, r2)
  }

  datatype QueryError = MalformedQuery

  /** The host's `evaluateToMap` of the query: candidate id to candidate gender,
      one entry per selected person however many name rows match; a WHERE
      clause that is not a conjunction is rejected. */
  function RunQuery(ts: seq<Token>, store: Store, pool: set<Id>, reference: Id): (r: Result<map<Id, string>, QueryError>)
    ensures r.Success? <==> IsConjunction(ts)
    ensures r.Success? ==> forall c :: c in r.value ==> c in store && r.value[c] == store[c].gender
  {
    if !IsConjunction(ts) then Failure(MalformedQuery)
    else Success(map c | c in store.Keys && Selects(ts, store, pool, reference, c) :: store[c].gender)
  }

  /** The swap flag's pairing of two name codes. */
  predicate NameCodesMatch(swap: bool, reference: NameCode, candidate: NameCode) {
    if swap then SqlEquals(reference.family, candidate.given) && SqlEquals(reference.given, candidate.family)
    else SqlEquals(reference.given, candidate.given) && SqlEquals(reference.family, candidate.family)
  }

  /** What the query is meant to select: another patient of the pool, neither
      side a user account, with a name whose codes pair with a name of the
      reference patient. */
  predicate IsMatch(store: Store, pool: set<Id>, swap: bool, reference: Id, candidate: Id) {
    && reference in store && candidate in store
    && candidate != reference
    && store[candidate].isPatient
    && !store[reference].isUser && !store[candidate].isUser
    && candidate in pool
    && exists n1, n2 | n1 in store[reference].names && n2 in store[candidate].names ::
         NameCodesMatch(swap, n1, n2)
  }

  /** The clause as written has two `and`s in a row, so the database rejects the
      query for every reference patient and either swap setting. */
  lemma AsWrittenRejected(swap: bool, store: Store, pool: set<Id>, reference: Id)
    ensures RunQuery(AsWrittenWhere(swap), store, pool, reference).Failure?
  {
    assert AsWrittenWhere(swap)[1] == And && AsWrittenWhere(swap)[2] == And;
  }

  /** The intended clause is a conjunction the database accepts. */
  lemma MatchWhereIsConjunction(swap: bool)
    ensures IsConjunction(MatchWhere(swap))
  {
    ConjoinIsConjunction(MatchConditions(swap));
  }

  /** Only the pairing the swap flag selects is ever compared: the intended
      clause compares like parts of the two names exactly when the flag is off. */
  lemma OnlySelectedPairing(swap: bool)
    ensures forall a, b :: Cond(CodesEqual(a, b)) in MatchWhere(swap) ==> (a == b <==> !swap)
  {
  }

  /** Every condition of a joined clause holds exactly when each of the joined conditions does. */
  lemma AllHoldConjoin(cs: seq<Condition>, store: Store, pool: set<Id>, reference: Id, r1: NameRow, r2: NameRow)
    requires |cs| > 0
    ensures AllHold(Conjoin(cs), store, pool, reference, r1, r2) <==> forall c :: c in cs ==> Holds(c, store, pool, reference, r1, r2)
  {
    var ts := Conjoin(cs);
    if AllHold(ts, store, pool, reference, r1, r2) {
      forall c | c in cs
        ensures Holds(c, store, pool, reference, r1, r2)
      {
        assert Cond(c) in ts;
      }
    }
  }

  /** A pair of name rows meeting every intended condition is a match. */
  lemma ConditionsGiveMatch(swap: bool, store: Store, pool: set<Id>, reference: Id, r1: NameRow, r2: NameRow)
    requires r1 in NameRows(store) && r2 in NameRows(store)
    requires forall c :: c in MatchConditions(swap) ==> Holds(c, store, pool, reference, r1, r2)
    ensures IsMatch(store, pool, swap, reference, r2.person)
  {
    var p := PairingConditions(swap);
    assert Holds(DistinctPersons, store, pool, reference, r1, r2);
    assert Holds(CandidateIsPatient, store, pool, reference, r1, r2);
    assert Holds(ReferenceNotUser, store, pool, reference, r1, r2);
    assert Holds(CandidateNotUser, store, pool, reference, r1, r2);
    assert Holds(CandidateInPool, store, pool, reference, r1, r2);
    assert Holds(IsReference, store, pool, reference, r1, r2);
    assert Holds(p[0], store, pool, reference, r1, r2) && Holds(p[1], store, pool, reference, r1, r2);
    assert NameCodesMatch(swap, r1.code, r2.code);
    assert r1.code in store[reference].names;
  }

  /** A match meets every intended condition with its matching name rows. */
  lemma MatchGivesConditions(swap: bool, store: Store, pool: set<Id>, reference: Id, candidate: Id)
    requires IsMatch(store, pool, swap, reference, candidate)
    ensures exists r1, r2 | r1 in NameRows(store) && r2 in NameRows(store) ::
      r2.person == candidate && forall c :: c in MatchConditions(swap) ==> Holds(c, store, pool, reference, r1, r2)
  {
    var n1, n2 :| n1 in store[reference].names && n2 in store[candidate].names && NameCodesMatch(swap, n1, n2);
    var r1, r2 := NameRow(reference, n1), NameRow(candidate, n2);
    assert r1 in NameRows(store) && r2 in NameRows(store);
    assert forall c :: c in MatchConditions(swap) ==> Holds(c, store, pool, reference, r1, r2);
  }

  /** The intended clause selects a candidate exactly when it is a match. */
  lemma MatchWhereMeaning(swap: bool, store: Store, pool: set<Id>, reference: Id, candidate: Id)
    ensures Selects(MatchWhere(swap), store, pool, reference, candidate) <==> IsMatch(store, pool, swap, reference, candidate)
  {
    var cs := MatchConditions(swap);
    if Selects(MatchWhere(swap), store, pool, reference, candidate) {
      var r1, r2 :| r1 in NameRows(store) && r2 in NameRows(store) &&
        r2.person == candidate && AllHold(MatchWhere(swap), store, pool, reference, r1, r2);
      AllHoldConjoin(cs, store, pool, reference, r1, r2);
      ConditionsGiveMatch(swap, store, pool, reference, r1, r2);
    }
    if IsMatch(store, pool, swap, reference, candidate) {
      MatchGivesConditions(swap, store, pool, reference, candidate);
      var r1, r2 :| r1 in NameRows(store) && r2 in NameRows(store) &&
        r2.person == candidate && forall c :: c in cs ==> Holds(c, store, pool, reference, r1, r2);
      AllHoldConjoin(cs, store, pool, reference, r1, r2);
    }
  }

  /** The host's result for the intended clause: every match, with its gender, and nothing else. */
  lemma MatchQueryResult(swap: bool, store: Store, pool: set<Id>, reference: Id)
    ensures var r := RunQuery(MatchWhere(swap), store, pool, reference);
      && r.Success?
      && (forall c :: c in r.value <==> IsMatch(store, pool, swap, reference, c))
  {
    MatchWhereIsConjunction(swap);
    forall c
      ensures Selects(MatchWhere(swap), store, pool, reference, c) <==> IsMatch(store, pool, swap, reference, c)
    {
      MatchWhereMeaning(swap, store, pool, reference, c);
    }
  }

  /** The name pairing is symmetric: swapping the roles of the two names keeps
      a pair matched, in either mode. */
  lemma NameCodesMatchSymmetric(swap: bool, a: NameCode, b: NameCode)
    ensures NameCodesMatch(swap, a, b) <==> NameCodesMatch(swap, b, a)
  {
  }

  /** The two modes differ: names with distinct given and family codes that
      match with swapped roles do not match in the plain mode, and back. */
  lemma ModesDiffer(x: Code, y: Code)
    requires x != y
    ensures NameCodesMatch(true, NameCode(Some(x), Some(y)), NameCode(Some(y), Some(x)))
    ensures !NameCodesMatch(false, NameCode(Some(x), Some(y)), NameCode(Some(y), Some(x)))
    ensures NameCodesMatch(false, NameCode(Some(x), Some(y)), NameCode(Some(x), Some(y)))
    ensures !NameCodesMatch(true, NameCode(Some(x), Some(y)), NameCode(Some(x), Some(y)))
  {
  }

  /** A name with a missing code pairs with no name in either mode, not even
      with itself, because SQL `=` is never true of NULL; a name with both
      codes present pairs with itself in the plain mode. */
  lemma MissingCodeMatchesNothing(swap: bool, n: NameCode, m: NameCode)
    ensures n.given.None? || n.family.None? ==> !NameCodesMatch(swap, n, m) && !NameCodesMatch(swap, m, n)
    ensures NameCodesMatch(false, n, n) <==> n.given.Some? && n.family.Some?
  {
  }
}

=== FILE: report.dfy ===
/** The report the evaluator produces: one row per reference patient that has
    candidates, a "#" column for the patient, numbered "potential match_i"
    columns for its candidates, and an "Error" column when loading fails. */
module Report {
  import opened Wrappers
  import opened Text
  import opened Persons
  import opened IdOrder
  import opened Query

  /** The first and the last encounter of a patient, if it has any. */
  datatype EncounterSpan = NoEncounters | Span(first: Encounter, last: Encounter)

  /** Whether an encounter is of one of the given types; every encounter is
      when no types are given. */
  predicate OfTypes(e: Encounter, types: Option<set<EncounterType>>) {
    types.None? || e.encounterType in types.value
  }

  /** `es[i]` is the earliest listed encounter of the types. */
  predicate FirstOfTypes(es: seq<Encounter>, types: Option<set<EncounterType>>, i: int) {
    0 <= i < |es| && OfTypes(es[i], types) && forall j :: 0 <= j < i ==> !OfTypes(es[j], types)
  }

  /** `es[i]` is the latest listed encounter of the types. */
  predicate LastOfTypes(es: seq<Encounter>, types: Option<set<EncounterType>>, i: int) {
    0 <= i < |es| && OfTypes(es[i], types) && forall j :: i < j < |es| ==> !OfTypes(es[j], types)
  }

  /** The encounters of the given types, in their original order; all of them
      when no types are given. */
  function EncountersOfTypes(es: seq<Encounter>, types: Option<set<EncounterType>>): (r: seq<Encounter>)
    ensures |r| <= |es|
    ensures types.None? ==> r == es
    ensures forall e :: e in r <==> e in es && OfTypes(e, types)
  {
    if types.None? then es
    else if |es| == 0 then []
    else
      var rest := EncountersOfTypes(es[1..], types);
      if es[0].encounterType in types.value then [es[0]] + rest else rest
  }

  /** `firstLastEncounter`: no span for a patient without encounters, otherwise
      the span from the first listed encounter to the last. */
  function FirstLastEncounter(es: seq<Encounter>): (s: EncounterSpan)
    ensures s.NoEncounters? <==> |es| == 0
    ensures s.Span? ==> s.first == es[0] && s.last == es[|es| - 1]
  {
    if |es| == 0 then NoEncounters else Span(es[0], es[|es| - 1])
  }

  /** Filtering keeps the listed order at the front: the first encounter kept
      is the earliest listed one of the types. */
  lemma {:induction false} EncountersOfTypesFirst(es: seq<Encounter>, types: Option<set<EncounterType>>)
    ensures var r := EncountersOfTypes(es, types);
      |r| > 0 ==> exists i :: FirstOfTypes(es, types, i) && es[i] == r[0]
    decreases |es|
  {
    var r := EncountersOfTypes(es, types);
    if types.None? {
      if |r| > 0 {
        assert FirstOfTypes(es, types, 0);
      }
    } else if |es| > 0 {
      var tail := es[1..];
      var rest := EncountersOfTypes(tail, types);
      assert r == if OfTypes(es[0], types) then [es[0]] + rest else rest;
      if OfTypes(es[0], types) {
        assert FirstOfTypes(es, types, 0);
      } else {
        EncountersOfTypesFirst(tail, types);
        if |r| > 0 {
          var i :| FirstOfTypes(tail, types, i) && tail[i] == rest[0];
          assert FirstOfTypes(es, types, i + 1) by {
            forall j | 0 <= j < i + 1 ensures !OfTypes(es[j], types) {
              if j > 0 { assert es[j] == tail[j - 1]; }
            }
          }
        }
      }
    }
  }

  /** A filter that keeps nothing had no encounter of the types to keep. */
  lemma NoneKept(es: seq<Encounter>, types: Option<set<EncounterType>>)
    requires EncountersOfTypes(es, types) == []
    ensures forall j :: 0 <= j < |es| ==> !OfTypes(es[j], types)
  {
    forall j | 0 <= j < |es| ensures !OfTypes(es[j], types) {
      assert es[j] in es;
    }
  }

  /** The latest encounter of the types after the first one is the latest of all. */
  lemma LastOfTypesShift(es: seq<Encounter>, types: Option<set<EncounterType>>, i: int)
    requires |es| > 0 && LastOfTypes(es[1..], types, i)
    ensures LastOfTypes(es, types, i + 1)
  {
    forall j | i + 1 < j < |es| ensures !OfTypes(es[j], types) {
      assert es[j] == es[1..][j - 1];
    }
  }

  /** The first encounter is the latest of the types when none after it is of them. */
  lemma LastOfTypesHead(es: seq<Encounter>, types: Option<set<EncounterType>>)
    requires |es| > 0 && OfTypes(es[0], types)
    requires forall j :: 0 <= j < |es| - 1 ==> !OfTypes(es[1..][j], types)
    ensures LastOfTypes(es, types, 0)
  {
    forall j | 0 < j < |es| ensures !OfTypes(es[j], types) {
      assert es[j] == es[1..][j - 1];
    }
  }

  /** Filtering keeps the listed order at the back: the last encounter kept is
      the latest listed one of the types. */
  lemma {:induction false} EncountersOfTypesLast(es: seq<Encounter>, types: Option<set<EncounterType>>)
    ensures var r := EncountersOfTypes(es, types);
      |r| > 0 ==> exists i :: LastOfTypes(es, types, i) && es[i] == r[|r| - 1]
    decreases |es|
  {
    var r := EncountersOfTypes(es, types);
    if types.None? {
      if |r| > 0 {
        assert LastOfTypes(es, types, |es| - 1);
      }
    } else if |es| > 0 {
      var tail := es[1..];
      var rest := EncountersOfTypes(tail, types);
      assert r == if OfTypes(es[0], types) then [es[0]] + rest else rest;
      EncountersOfTypesLast(tail, types);
      if |rest| > 0 {
        var i :| LastOfTypes(tail, types, i) && tail[i] == rest[|rest| - 1];
        LastOfTypesShift(es, types, i);
        assert es[i + 1] == r[|r| - 1];
        assert LastOfTypes(es, types, i + 1) && es[i + 1] == r[|r| - 1];
      } else if OfTypes(es[0], types) {
        NoneKept(tail, types);
        LastOfTypesHead(es, types);
        assert r == [es[0]];
        assert LastOfTypes(es, types, 0) && es[0] == r[|r| - 1];
      }
    }
  }

  /** What a report cell shows of one patient. The evaluator also builds the
      names, age and program outcome from host services; those are left out of
      this model. */
  datatype Summary = Summary(id: Id, gender: string, village: string, encounters: EncounterSpan)

  /** Why loading a patient's summary failed: it has no address, so asking for
      its first address fails. */
  datatype LoadError = NoAddress(id: Id)

  /** The summary of `id`, using the encounters of the summary types. */
  function Summarize(store: Store, id: Id, types: Option<set<EncounterType>>): (r: Result<Summary, LoadError>)
    requires id in store
    ensures r.Failure? <==> |store[id].villages| == 0
    ensures r.Success? ==> r.value.id == id && r.value.village == store[id].villages[0]
  {
    var p := store[id];
    if |p.villages| == 0 then Failure(NoAddress(id))
    else Success(Summary(id, p.gender, p.villages[0], FirstLastEncounter(EncountersOfTypes(p.encounters, types))))
  }

  /** The encounter span of a loaded summary runs from the patient's earliest
      listed encounter of the summary types to its latest, and is empty exactly
      when the patient has none of those types. */
  lemma SummarySpan(store: Store, id: Id, types: Option<set<EncounterType>>)
    requires id in store && |store[id].villages| > 0
    ensures var es, span := store[id].encounters, Summarize(store, id, types).value.encounters;
      && (span.NoEncounters? <==> forall e :: e in es ==> !OfTypes(e, types))
      && (span.Span? ==> exists i :: FirstOfTypes(es, types, i) && es[i] == span.first)
      && (span.Span? ==> exists i :: LastOfTypes(es, types, i) && es[i] == span.last)
  {
    var es := store[id].encounters;
    var r := EncountersOfTypes(es, types);
    EncountersOfTypesFirst(es, types);
    EncountersOfTypesLast(es, types);
    if |r| > 0 {
      assert r[0] in r;
    }
  }

  /** The content of a cell: the reference patient, a merge link from the
      reference to a candidate, or plain text. */
  datatype CellValue = PatientLink(patient: Summary) | MergeLink(reference: Id, candidate: Summary) | Plain(text: string)

  datatype Cell = Cell(column: string, value: CellValue)

  type Row = seq<Cell>

  const IdColumn: string := "#"
  const ErrorColumn: string := "Error"
  const MatchColumnPrefix: string := "potential match_"

  /** The column of the `i`-th candidate. */
  function MatchColumn(i: nat): string {
    MatchColumnPrefix + NatToString(i)
  }

  /** The cell that reports a failure while loading `reference`. */
  function ErrorCell(reference: Id): Cell {
    Cell(ErrorColumn, Plain("Error while loading patient " + NatToString(reference)))
  }

  /** Candidate columns are numbered apart from each other and from the "#" and "Error" columns. */
  lemma ColumnsDistinct(i: nat, j: nat)
    ensures MatchColumn(i) == MatchColumn(j) <==> i == j
    ensures MatchColumn(i) != IdColumn && MatchColumn(i) != ErrorColumn
  {
    if MatchColumn(i) == MatchColumn(j) {
      AppendCancel(MatchColumnPrefix, NatToString(i), NatToString(j));
      NatToStringInjective(i, j);
    }
    assert MatchColumn(i)[0] == 'p';
  }

  /** Error cells of different patients name different patients. */
  lemma ErrorCellsDistinct(a: Id, b: Id)
    ensures ErrorCell(a) == ErrorCell(b) <==> a == b
  {
    if ErrorCell(a) == ErrorCell(b) {
      AppendCancel("Error while loading patient ", NatToString(a), NatToString(b));
      NatToStringInjective(a, b);
    }
  }

  predicate AllInStore(store: Store, ids: seq<Id>) {
    forall c :: c in ids ==> c in store
  }

  /** Every listed patient has an address, so every summary loads. */
  predicate AllLoadable(store: Store, ids: seq<Id>)
    requires AllInStore(store, ids)
  {
    forall k :: 0 <= k < |ids| ==> |store[ids[k]].villages| > 0
  }

  /** `cells` are merge links from `reference` to the first `|cells|` candidates,
      numbered consecutively from `next`. */
  predicate NumberedMatchCells(cells: seq<Cell>, store: Store, types: Option<set<EncounterType>>, reference: Id, ms: seq<Id>, next: nat)
    requires AllInStore(store, ms)
  {
    && |cells| <= |ms|
    && forall k :: 0 <= k < |cells| ==>
         && cells[k].column == MatchColumn(next + k)
         && cells[k].value.MergeLink?
         && cells[k].value.reference == reference
         && Summarize(store, ms[k], types) == Success(cells[k].value.candidate)
  }

  /** The candidate columns of a row, numbered from `next`. The first candidate
      whose summary fails ends them with the error cell, since the catch adds
      its column to the row already being filled. */
  function MatchCells(store: Store, types: Option<set<EncounterType>>, reference: Id, ms: seq<Id>, next: nat): (cells: seq<Cell>)
    requires AllInStore(store, ms)
    ensures |cells| <= |ms|
    ensures |ms| > 0 ==> |cells| > 0
    decreases |ms|
  {
    if |ms| == 0 then []
    else
      match Summarize(store, ms[0], types)
      case Failure(_) => [ErrorCell(reference)]
      case Success(s) => [Cell(MatchColumn(next), MergeLink(reference, s))] + MatchCells(store, types, reference, ms[1..], next + 1)
  }

  /** Putting the cell of the first candidate in front of the numbered cells
      of the remaining ones numbers them all. */
  lemma NumberedMatchCellsCons(c0: Cell, cells: seq<Cell>, store: Store, types: Option<set<EncounterType>>, reference: Id, ms: seq<Id>, next: nat)
    requires AllInStore(store, ms) && |ms| > 0
    requires NumberedMatchCells(cells, store, types, reference, ms[1..], next + 1)
    requires c0.column == MatchColumn(next) && c0.value.MergeLink? && c0.value.reference == reference
    requires Summarize(store, ms[0], types) == Success(c0.value.candidate)
    ensures NumberedMatchCells([c0] + cells, store, types, reference, ms, next)
  {
    var all := [c0] + cells;
    forall k | 0 <= k < |all|
      ensures all[k].column == MatchColumn(next + k)
      ensures all[k].value.MergeLink? && all[k].value.reference == reference
      ensures Summarize(store, ms[k], types) == Success(all[k].value.candidate)
    {
      if k > 0 {
        assert all[k] == cells[k - 1];
        assert ms[k] == ms[1..][k - 1];
      }
    }
  }

  /** When every candidate loads, there is one merge cell per candidate, in
      order, numbered consecutively. */
  lemma {:induction false} MatchCellsWhenLoadable(store: Store, types: Option<set<EncounterType>>, reference: Id, ms: seq<Id>, next: nat)
    requires AllInStore(store, ms) && AllLoadable(store, ms)
    ensures |MatchCells(store, types, reference, ms, next)| == |ms|
    ensures NumberedMatchCells(MatchCells(store, types, reference, ms, next), store, types, reference, ms, next)
    decreases |ms|
  {
    if |ms| > 0 {
      var rest := ms[1..];
      assert AllLoadable(store, rest) by {
        forall k | 0 <= k < |rest| ensures |store[rest[k]].villages| > 0 {
          assert rest[k] == ms[k + 1];
        }
      }
      MatchCellsWhenLoadable(store, types, reference, rest, next + 1);
      var tail := MatchCells(store, types, reference, rest, next + 1);
      var s := Summarize(store, ms[0], types);
      assert s.Success?;
      var c0 := Cell(MatchColumn(next), MergeLink(reference, s.value));
      assert MatchCells(store, types, reference, ms, next) == [c0] + tail;
      NumberedMatchCellsCons(c0, tail, store, types, reference, ms, next);
    }
  }

  /** The first `n` candidates load when the first one does and the `n - 1` after it do. */
  lemma AllLoadableCons(store: Store, ms: seq<Id>, n: nat)
    requires AllInStore(store, ms) && 0 < n <= |ms|
    requires |store[ms[0]].villages| > 0
    requires AllLoadable(store, ms[1..][..n - 1])
    ensures AllLoadable(store, ms[..n])
  {
    forall k | 0 <= k < n ensures |store[ms[..n][k]].villages| > 0 {
      if k > 0 {
        assert ms[..n][k] == ms[1..][..n - 1][k - 1];
      }
    }
  }

  /** The cells stop at the first candidate that does not load: the ones
      before it are numbered merge cells and the error cell takes its place. */
  predicate StopsAtFailure(cells: seq<Cell>, store: Store, types: Option<set<EncounterType>>, reference: Id, ms: seq<Id>, next: nat)
    requires AllInStore(store, ms)
  {
    && 1 <= |cells| <= |ms|
    && cells[|cells| - 1] == ErrorCell(reference)
    && NumberedMatchCells(cells[..|cells| - 1], store, types, reference, ms, next)
    && AllLoadable(store, ms[..|cells| - 1])
    && |store[ms[|cells| - 1]].villages| == 0
  }

  /** Putting a loading candidate's cell in front of cells that stop at a
      failure gives cells that stop at the same failure. */
  lemma StopsAtFailureCons(c0: Cell, tail: seq<Cell>, store: Store, types: Option<set<EncounterType>>, reference: Id, ms: seq<Id>, next: nat)
    requires AllInStore(store, ms) && |ms| > 0 && |store[ms[0]].villages| > 0
    requires c0.column == MatchColumn(next) && c0.value.MergeLink? && c0.value.reference == reference
    requires Summarize(store, ms[0], types) == Success(c0.value.candidate)
    requires StopsAtFailure(tail, store, types, reference, ms[1..], next + 1)
    ensures StopsAtFailure([c0] + tail, store, types, reference, ms, next)
  {
    var cells := [c0] + tail;
    var n := |tail|;
    assert cells[n] == tail[n - 1];
    assert ms[n] == ms[1..][n - 1];
    assert cells[..n] == [c0] + tail[..n - 1];
    NumberedMatchCellsCons(c0, tail[..n - 1], store, types, reference, ms, next);
    AllLoadableCons(store, ms, n);
  }

  /** When some candidate does not load, the cells stop at the first such candidate. */
  lemma {:induction false} MatchCellsAtFailure(store: Store, types: Option<set<EncounterType>>, reference: Id, ms: seq<Id>, next: nat)
    requires AllInStore(store, ms) && !AllLoadable(store, ms)
    ensures StopsAtFailure(MatchCells(store, types, reference, ms, next), store, types, reference, ms, next)
    decreases |ms|
  {
    var cells := MatchCells(store, types, reference, ms, next);
    assert |ms| > 0;
    if |store[ms[0]].villages| == 0 {
      assert cells == [ErrorCell(reference)];
      assert cells[..0] == [] && ms[..0] == [];
    } else {
      var rest := ms[1..];
      assert !AllLoadable(store, rest) by {
        var j :| 0 <= j < |ms| && |store[ms[j]].villages| == 0;
        assert j > 0 && rest[j - 1] == ms[j];
      }
      MatchCellsAtFailure(store, types, reference, rest, next + 1);
      var s := Summarize(store, ms[0], types);
      var c0 := Cell(MatchColumn(next), MergeLink(reference, s.value));
      assert cells == [c0] + MatchCells(store, types, reference, rest, next + 1);
      StopsAtFailureCons(c0, MatchCells(store, types, reference, rest, next + 1), store, types, reference, ms, next);
    }
  }

  /** The shape of every row: the error cell alone; or the reference patient's
      "#" cell followed by candidate columns numbered from 1, the last of which
      may instead be the error cell. */
  predicate WellFormedRow(row: Row, reference: Id) {
    || row == [ErrorCell(reference)]
    || (&& |row| >= 2
        && row[0].column == IdColumn
        && row[0].value.PatientLink? && row[0].value.patient.id == reference
        && forall k :: 1 <= k < |row| ==>
             || (row[k].column == MatchColumn(k) && row[k].value.MergeLink? && row[k].value.reference == reference)
             || (k == |row| - 1 && row[k] == ErrorCell(reference)))
  }

  /** The outcome of the duplicate query for one reference patient: its
      candidates, each known to the store, or the query's failure. */
  predicate ValidMatches(store: Store, matches: Result<seq<Id>, QueryError>) {
    matches.Success? ==> AllInStore(store, matches.value)
  }

  /** The row of one reference patient given the outcome of its duplicate
      query, or none when it has no candidates. A failed query gives the row
      holding the error cell alone. */
  function PatientRow(store: Store, types: Option<set<EncounterType>>, reference: Id, matches: Result<seq<Id>, QueryError>): (row: Option<Row>)
    requires reference in store && ValidMatches(store, matches)
    ensures row.None? <==> matches == Success([])
    ensures matches.Failure? ==> row == Some([ErrorCell(reference)])
  {
    match matches
    case Failure(_) => Some([ErrorCell(reference)])
    case Success(ms) =>
      if |ms| == 0 then None
      else
        match Summarize(store, reference, types)
        case Failure(_) => Some([ErrorCell(reference)])
        case Success(s) => Some([Cell(IdColumn, PatientLink(s))] + MatchCells(store, types, reference, ms, 1))
  }

  /** The "#" cell of the reference followed by its candidate cells has the
      shape `WellFormedRow` defines. */
  lemma RowOfCellsWellFormed(store: Store, types: Option<set<EncounterType>>, s: Summary, reference: Id, ms: seq<Id>)
    requires AllInStore(store, ms) && |ms| > 0 && s.id == reference
    ensures WellFormedRow([Cell(IdColumn, PatientLink(s))] + MatchCells(store, types, reference, ms, 1), reference)
  {
    if AllLoadable(store, ms) {
      LoadableRowWellFormed(store, types, s, reference, ms);
    } else {
      FailingRowWellFormed(store, types, s, reference, ms);
    }
  }

  /** `cells` are merge links from `reference`, in columns numbered from `next`. */
  predicate MergeCellsFrom(cells: seq<Cell>, reference: Id, next: nat) {
    forall k :: 0 <= k < |cells| ==>
      cells[k].column == MatchColumn(next + k) && cells[k].value.MergeLink? && cells[k].value.reference == reference
  }

  /** The "#" cell followed by merge cells numbered from 1 is a well-formed row. */
  lemma IdThenMergeCellsWellFormed(s: Summary, reference: Id, cells: seq<Cell>)
    requires s.id == reference && |cells| > 0 && MergeCellsFrom(cells, reference, 1)
    ensures WellFormedRow([Cell(IdColumn, PatientLink(s))] + cells, reference)
  {
    var row := [Cell(IdColumn, PatientLink(s))] + cells;
    forall k | 1 <= k < |row|
      ensures row[k].column == MatchColumn(k) && row[k].value.MergeLink? && row[k].value.reference == reference
    {
      assert row[k] == cells[k - 1];
    }
  }

  /** The "#" cell followed by merge cells numbered from 1 and then the error
      cell is a well-formed row. */
  lemma IdThenMergeCellsThenErrorWellFormed(s: Summary, reference: Id, cells: seq<Cell>)
    requires s.id == reference && |cells| > 0 && cells[|cells| - 1] == ErrorCell(reference)
    requires MergeCellsFrom(cells[..|cells| - 1], reference, 1)
    ensures WellFormedRow([Cell(IdColumn, PatientLink(s))] + cells, reference)
  {
    var row := [Cell(IdColumn, PatientLink(s))] + cells;
    forall k | 1 <= k < |row|
      ensures || (row[k].column == MatchColumn(k) && row[k].value.MergeLink? && row[k].value.reference == reference)
              || (k == |row| - 1 && row[k] == ErrorCell(reference))
    {
      assert row[k] == cells[k - 1];
      if k < |row| - 1 {
        assert cells[k - 1] == cells[..|cells| - 1][k - 1];
      }
    }
  }

  /** The row of loadable candidates is made of numbered merge cells after the "#" cell. */
  lemma LoadableRowWellFormed(store: Store, types: Option<set<EncounterType>>, s: Summary, reference: Id, ms: seq<Id>)
    requires AllInStore(store, ms) && |ms| > 0 && s.id == reference && AllLoadable(store, ms)
    ensures WellFormedRow([Cell(IdColumn, PatientLink(s))] + MatchCells(store, types, reference, ms, 1), reference)
  {
    var cells := MatchCells(store, types, reference, ms, 1);
    MatchCellsWhenLoadable(store, types, reference, ms, 1);
    assert MergeCellsFrom(cells, reference, 1);
    IdThenMergeCellsWellFormed(s, reference, cells);
  }

  /** The row of candidates one of which fails is numbered merge cells, then the error cell. */
  lemma FailingRowWellFormed(store: Store, types: Option<set<EncounterType>>, s: Summary, reference: Id, ms: seq<Id>)
    requires AllInStore(store, ms) && |ms| > 0 && s.id == reference && !AllLoadable(store, ms)
    ensures WellFormedRow([Cell(IdColumn, PatientLink(s))] + MatchCells(store, types, reference, ms, 1), reference)
  {
    var cells := MatchCells(store, types, reference, ms, 1);
    MatchCellsAtFailure(store, types, reference, ms, 1);
    assert MergeCellsFrom(cells[..|cells| - 1], reference, 1);
    IdThenMergeCellsThenErrorWellFormed(s, reference, cells);
  }

  /** Every row has the shape `WellFormedRow` defines. */
  lemma PatientRowWellFormed(store: Store, types: Option<set<EncounterType>>, reference: Id, matches: Result<seq<Id>, QueryError>)
    requires reference in store && ValidMatches(store, matches)
    requires PatientRow(store, types, reference, matches).Some?
    ensures WellFormedRow(PatientRow(store, types, reference, matches).value, reference)
  {
    if matches.Success? {
      var sum := Summarize(store, reference, types);
      if sum.Success? {
        RowOfCellsWellFormed(store, types, sum.value, reference, matches.value);
      }
    }
  }

  /** A patient with candidates whose summary and candidates' summaries all
      load gets the "#" cell and one numbered merge cell per candidate, in order. */
  lemma PatientRowComplete(store: Store, types: Option<set<EncounterType>>, reference: Id, ms: seq<Id>)
    requires reference in store && AllInStore(store, ms)
    requires |ms| > 0 && |store[reference].villages| > 0 && AllLoadable(store, ms)
    ensures var row := PatientRow(store, types, reference, Success(ms));
      && row.Some? && |row.value| == |ms| + 1
      && row.value[0].column == IdColumn
      && Summarize(store, reference, types) == Success(row.value[0].value.patient)
      && NumberedMatchCells(row.value[1..], store, types, reference, ms, 1)
  {
    var row := PatientRow(store, types, reference, Success(ms)).value;
    MatchCellsWhenLoadable(store, types, reference, ms, 1);
    assert row[1..] == MatchCells(store, types, reference, ms, 1);
  }

  /** A patient with candidates whose own summary or some candidate's summary
      fails still gets a row, and it ends with the error cell. */
  lemma PatientRowAtFailure(store: Store, types: Option<set<EncounterType>>, reference: Id, ms: seq<Id>)
    requires reference in store && AllInStore(store, ms) && |ms| > 0
    requires |store[reference].villages| == 0 || !AllLoadable(store, ms)
    ensures var row := PatientRow(store, types, reference, Success(ms));
      row.Some? && row.value[|row.value| - 1] == ErrorCell(reference)
  {
    if |store[reference].villages| > 0 {
      MatchCellsAtFailure(store, types, reference, ms, 1);
    }
  }

  /** Every merge link of a row leads from the row's reference patient to one
      of its candidates. */
  lemma PatientRowLinksToCandidates(store: Store, types: Option<set<EncounterType>>, reference: Id, ms: seq<Id>)
    requires reference in store && AllInStore(store, ms)
    requires PatientRow(store, types, reference, Success(ms)).Some?
    ensures var row := PatientRow(store, types, reference, Success(ms)).value;
      forall k :: 0 <= k < |row| && row[k].value.MergeLink? ==>
        row[k].value.reference == reference && row[k].value.candidate.id in ms
  {
    var row := PatientRow(store, types, reference, Success(ms)).value;
    var sum := Summarize(store, reference, types);
    if sum.Success? {
      var cells := MatchCells(store, types, reference, ms, 1);
      assert row == [Cell(IdColumn, PatientLink(sum.value))] + cells;
      MatchCellsLinkToCandidates(store, types, reference, ms, 1);
      forall k | 0 <= k < |row| && row[k].value.MergeLink?
        ensures row[k].value.reference == reference && row[k].value.candidate.id in ms
      {
        assert k > 0 && row[k] == cells[k - 1];
      }
    }
  }

  /** Every merge link among `cells` leads from `reference` to a member of `ms`. */
  predicate LinksWithin(cells: seq<Cell>, reference: Id, ms: seq<Id>) {
    forall k :: 0 <= k < |cells| && cells[k].value.MergeLink? ==>
      cells[k].value.reference == reference && cells[k].value.candidate.id in ms
  }

  /** Every merge cell among the candidate columns links the reference patient
      to one of the candidates. */
  lemma {:induction false} MatchCellsLinkToCandidates(store: Store, types: Option<set<EncounterType>>, reference: Id, ms: seq<Id>, next: nat)
    requires AllInStore(store, ms)
    ensures LinksWithin(MatchCells(store, types, reference, ms, next), reference, ms)
    decreases |ms|
  {
    if |ms| > 0 && Summarize(store, ms[0], types).Success? {
      var rest := MatchCells(store, types, reference, ms[1..], next + 1);
      MatchCellsLinkToCandidates(store, types, reference, ms[1..], next + 1);
      var cells := MatchCells(store, types, reference, ms, next);
      forall k | 0 <= k < |cells| && cells[k].value.MergeLink?
        ensures cells[k].value.reference == reference && cells[k].value.candidate.id in ms
      {
        if k > 0 {
          assert cells[k] == rest[k - 1];
          assert cells[k].value.candidate.id in ms[1..];
        }
      }
    }
  }

}

=== FILE: text.dfy ===
/** The string operations the report relies on: Java's `String.equalsIgnoreCase`
    and the decimal rendering of an `Integer` in string concatenation. */
module Text {

  /** Lower-cases an ASCII letter; every other character is left as it is. */
  function LowerChar(c: char): char {
    if 'A' <= c <= 'Z' then (c as int + 32) as char else c
  }

  /** `a.equalsIgnoreCase(b)`: same length and equal characters up to case. */
  predicate EqualsIgnoreCase(a: string, b: string) {
    |a| == |b| && forall i :: 0 <= i < |a| ==> LowerChar(a[i]) == LowerChar(b[i])
  }

  lemma EqualsIgnoreCaseIsEquivalence(a: string, b: string, c: string)
    ensures EqualsIgnoreCase(a, a)
    ensures EqualsIgnoreCase(a, b) ==> EqualsIgnoreCase(b, a)
    ensures EqualsIgnoreCase(a, b) && EqualsIgnoreCase(b, c) ==> EqualsIgnoreCase(a, c)
  {
  }

  /** Upper- and lower-case spellings of the same ASCII word compare equal. */
  lemma EqualsIgnoreCaseOfCase()
    ensures EqualsIgnoreCase("M", "m") && EqualsIgnoreCase("f", "F")
    ensures !EqualsIgnoreCase("M", "F")
  {
    assert LowerChar("M"[0]) == 'm' && LowerChar("F"[0]) == 'f';
  }

  predicate IsDigit(c: char) {
    '0' <= c <= '9'
  }

  predicate AllDigits(s: string) {
    forall i :: 0 <= i < |s| ==> IsDigit(s[i])
  }

  function DigitChar(d: nat): (c: char)
    requires d < 10
    ensures IsDigit(c) && c as int - '0' as int == d
  {
    ('0' as int + d) as char
  }

  /** The decimal spelling of `n`, as `"" + n` produces it in Java. */
  function NatToString(n: nat): (s: string)
    ensures |s| >= 1 && AllDigits(s)
    ensures n >= 10 ==> s[0] != '0'
    decreases n
  {
    if n < 10 then [DigitChar(n)] else NatToString(n / 10) + [DigitChar(n % 10)]
  }

  /** The number a string of decimal digits denotes. */
  function DigitsValue(s: string): nat
    requires AllDigits(s)
  {
    if |s| == 0 then 0
    else DigitsValue(s[..|s| - 1]) * 10 + (s[|s| - 1] as int - '0' as int)
  }

  /** Reading back the decimal spelling yields the number. */
  lemma {:induction false} DigitsValueOfNatToString(n: nat)
    ensures DigitsValue(NatToString(n)) == n
    decreases n
  {
    var s := NatToString(n);
    if n >= 10 {
      DigitsValueOfNatToString(n / 10);
      assert s[..|s| - 1] == NatToString(n / 10);
    }
  }

  /** Distinct numbers are spelled differently. */
  lemma NatToStringInjective(a: nat, b: nat)
    ensures NatToString(a) == NatToString(b) ==> a == b
  {
    if NatToString(a) == NatToString(b) {
      DigitsValueOfNatToString(a);
      DigitsValueOfNatToString(b);
    }
  }

  /** If `p + x == p + y` then `x == y`. */
  lemma AppendCancel(p: string, x: string, y: string)
    requires p + x == p + y
    ensures x == y
  {
    assert x == (p + x)[|p|..];
    assert y == (p + y)[|p|..];
  }
}

=== FILE: wrappers.dfy ===
/** Optional values and results that may fail, usable with `:-`. */
module Wrappers {

  /** A value that may be absent; stands for a Java reference that may be null. */
  datatype Option<+T> = None | Some(value: T) {
    function GetOr(default: T): T {
      match this
      case Some(v) => v
      case None => default
    }
  }

  /** Either a computed value or the error that interrupted the computation. */
  datatype Result<+R, +E> = Success(value: R) | Failure(error: E) {
    predicate IsFailure() {
      Failure?
    }

    function PropagateFailure<U>(): Result<U, E>
      requires Failure?
    {
      Failure(error)
    }

    function Extract(): R
      requires Success?
    {
      value
    }
  }
}
